=== FILE: README.md ===
# Mapty workout list — a Dafny model

A model of the workout logic of the Mapty map-based workout tracker
(`script.js`). A user records running or cycling workouts at points on a map;
the app keeps them in a list that can be created into, edited, deleted from
and sorted. This project models that logic as pure Dafny functions and
proves what they guarantee:

- **Workout records** (`Workouts`). The `Running` and `Cycling` classes become
  one `Workout` record with a `Kind` tag and all four metric fields. Running
  derives `pace = duration / distance`. Cycling derives
  `speed = distance / (duration / 60)`. The pair that does not apply holds the
  sentinel `-999`. The record keeps every field because an edit can switch an
  existing workout between the two types, and sorting reads the sentinel
  values. The variant rules are the invariant `WellFormed`, and every list
  operation preserves it.
- **Descriptions** (`Workouts.Description`, `Descriptions`). A description
  reads `Running on May 5`, optionally followed by the place suffix. The
  parser `ParseDescription` is its inverse, and both round trips are proved.
- **Validation** (`Validation`). A form field read with unary `+` can give
  NaN or ±Infinity, so inputs are modelled by `Num`. The two checks are
  deliberately asymmetric:
  - running needs distance, duration and cadence finite and positive;
  - cycling needs all three values finite, but only distance and duration
    positive.
- **The list** (`Store`). Create validates and then appends. Edit validates
  and then replaces fields of the first entry with the id. Delete, once
  confirmed, filters the id out.
- **Sorting** (`Sorting`). The toggle state is `reverseMode` plus the
  previous key. Sorting is stable: descending when `reverseMode` is false,
  ascending when it is true. The first request for a key therefore sorts
  the array descending. A repeated request for the same key flips the
  direction. A request for a different key keeps the current direction.
  The sidebar shows the array in reverse, because `_renderWorkout` inserts
  each entry right after the form (`script.js:478`). So the user sees the
  first request as ascending, the second as descending, and so on.
- **The session** (`App`). A saved edit and a confirmed delete end with a
  page reload. The reload builds a fresh `App`, which reads the stored list
  back and resets the toggle to its initial state. A create does not
  reload, so the toggle survives it.

Parameters stand in for everything the browser supplies:
- the clock reading, as a `Stamp`: milliseconds, plus the local month and
  day;
- the generated id;
- the clicked map point;
- the reverse-geocoding result, as `Option<Place>`;
- the user's answer to the delete confirmation.

Numbers are Dafny `real`s.

## Model

| member | source | states |
|---|---|---|
| Workouts.NewRunning | script.js:55-70 | a new run is well formed exactly when its cadence is positive, keeps the given distance, duration and cadence, has pace × distance = duration, and has speed and elevation gain at -999 |
| Workouts.NewCycling | script.js:73-88 | a new ride is well formed, keeps the given elevation gain, has speed × (duration / 60) = distance, and has pace and cadence at -999 |
| Workouts.Reassigned | script.js:311-335 | the edited record is well formed exactly when a run gets a positive cadence. It has the new type, distance, duration and metric, and the new derived metric. The other pair is reset to -999. Id, date, coordinates and description are kept |
| Workouts.PlaceText | script.js:252-254 | a resolved place suffix starts with a space |
| Workouts.PlaceSuffix | script.js:287 | corrected suffix: empty exactly when the lookup failed, otherwise the place text |
| Workouts.PlaceSuffixAsWritten | script.js:255-287 | the suffix as the source computes it is never empty, and it differs from the corrected suffix exactly when the lookup failed |
| Text.Capitalize | script.js:49 | ASCII upper-casing of the first character, keeping the rest |
| Text.Decimal | script.js:49-51 | the day is written as a canonical numeral: digits only, no leading zero |
| Text.ValueOfDecimal | script.js:49-51 | reading the written day back gives the day |
| Text.DecimalOfValue | script.js:49-51 | every canonical numeral is the writing of its value, so the writing is one-to-one |
| Descriptions.ParseOfDescription | script.js:34-51 | any description `Workouts.Description` writes, followed by a suffix that does not start with a digit parses back to the same type, month, day and suffix |
| Descriptions.DescriptionOfParse | script.js:34-51 | every string the parser accepts is a description followed by the returned suffix |
| Descriptions.MonthIndexOfName | script.js:35-48 | the twelve month names are distinct, so a name identifies its month index |
| Validation.ValidInputs | script.js:220 | true exactly when every input is a finite number |
| Validation.PositiveInputs | script.js:221 | true exactly when every input is greater than zero. +Infinity counts as positive |
| Validation.CheckInputRunningIff | script.js:223-232 | `Validation.CheckInputRunning`: running input is accepted if and only if distance, duration and cadence are all finite and positive |
| Validation.CheckInputCyclingIff | script.js:234-243 | `Validation.CheckInputCycling`: cycling input is accepted if and only if all three are finite and distance and duration are positive |
| Validation.CheckAsymmetry | script.js:220-243 | a zero or negative elevation passes the cycling check, and the same value as cadence fails the running check. +Infinity passes the positivity test but fails the check |
| Validation.AcceptedValues | script.js:266-285 | an accepted form has positive finite distance and duration, and a finite value in the field its type reads |
| Store.Build | script.js:271-287 | the created workout is well formed and carries the form's type and values, the id, date and point. Its description is the formatted type and date followed by the given suffix |
| Store.Constructed | script.js:271-285 | the constructor chosen by the type yields a workout with the given values, well formed exactly when a run's cadence is positive |
| Store.MetricOf | script.js:273-280 | the value read is the cadence field for running and the elevation field for cycling |
| Store.NewWorkout | script.js:266-289 | invalid input leaves the list unchanged and is reported. Valid input appends exactly one workout at the end, with the corrected place suffix, and keeps the old entries. Well-formedness is preserved |
| Store.RunningExample | script.js:272-276 | 5 km in 30 min at cadence 150 is saved with pace 6 and a description starting "Running on " |
| Store.CyclingExample | script.js:279-285 | 20 km in 60 min with 300 m is saved with speed 20 and -999 for pace and cadence |
| Store.NegativeDistanceRejected | script.js:272-285 | a distance of -1 is refused for either type and the list is unchanged |
| Store.CreatedDescriptionParses | script.js:287 | a created workout's description reads back as its own type, month and day, followed by the place suffix |
| Store.FirstIndexOf | script.js:487-490 | finds the first entry with the id, or reports that no entry has it |
| Store.Edited | script.js:304-335 | an accepted edit sets type, distance, duration and the active metric, and recomputes the derived metric. It resets the other pair to -999 and keeps id, date, coordinates and description |
| Store.EditWorkout | script.js:304-337 | invalid input or a missing id leaves the list unchanged. Otherwise only the first entry with the id changes, to the edited workout. Well-formedness is preserved |
| Store.EditUnchangedFormKeepsWorkout | script.js:182-188 | submitting the pre-filled edit form (`Store.FormOf`) of a well-formed workout unchanged gives back the same workout |
| Store.EditIdempotent | script.js:304-337 | submitting the same edit twice equals submitting it once |
| Store.RemoveKeeps | script.js:347 | the filter `Store.Remove` keeps the entries in their order, drops exactly the entries with the id, and keeps every other entry |
| Store.DeleteWorkout | script.js:341-352 | a declined confirmation changes nothing. A confirmed delete removes every entry with the id and keeps the rest in order. Well-formedness is preserved |
| Store.RemoveAbsent | script.js:347 | deleting an id that no entry has leaves the list unchanged |
| Store.DeleteIdempotent | script.js:341-352 | deleting twice equals deleting once |
| Store.DeleteUndoesCreate | script.js:289-347 | deleting a just-created workout whose id was fresh restores the list |
| Store.FailedLookupAsWritten | script.js:245-287 | as written, a workout created while the lookup fails gets the text "undefined" right after the day, unlike the corrected create operation |
| Store.FailedLookupLeavesDescriptionBare | script.js:287 | corrected: a workout created after a failed lookup has nothing after the day |
| Sorting.Toggle | script.js:354-360 | the direction flips exactly when the key equals the previous key, and the key is remembered |
| Sorting.Insert | script.js:363-384 | insertion keeps the multiset of entries, with the new one added |
| Sorting.SortBy | script.js:363-384 | the sorted list is a permutation of the input |
| Sorting.SortBySorted | script.js:363-384 | the result is ordered by the key in the requested direction, with sentinels compared as numbers |
| Sorting.SortByStable | script.js:363-384 | for every key value, the entries with that value keep their original relative order |
| Sorting.SortedIsFixed | script.js:363-384 | an already ordered list is left as it is |
| Sorting.SortByIdempotent | script.js:363-384 | sorting twice in one direction equals sorting once |
| Sorting.SortedUnique | script.js:363-384 | when no two different entries share a key, there is only one ordered arrangement of them |
| Sorting.OppositeDirectionReverses | script.js:363-384 | when no two different entries share a key, the opposite direction gives exactly the reversed list |
| Sorting.SortWorkouts | script.js:356-385 | a request updates the toggle state and returns a permutation ordered descending when `reverseMode` is false and ascending when true |
| Sorting.RepeatedRequestsAlternate | script.js:354-385 | from the initial state, three requests for one key sort descending, ascending, descending |
| Sorting.OtherKeyKeepsDirection | script.js:356-360 | a request for a different key keeps the current direction |
| Sorting.SecondRequestReverses | script.js:356-385 | when no two different entries share the key, a second request for the same key shows exactly the reverse list |
| App.Step | script.js:266-385 | one action on the session. Create, edit and delete change the list as the list operations do. A saved edit or a confirmed delete resets the toggle to its initial state. A create, a failed edit and a declined delete keep it. A sort stores the key, flips the direction exactly when the key repeats, and permutes the list into that direction. A create adds an entry exactly when the form is accepted. Well-formedness is preserved |
| App.ReloadForgetsToggle | script.js:338-355 | after a saved edit or a confirmed delete, a request for any key sorts descending |
| App.CreateKeepsToggle | script.js:266-289 | after a create, repeating the previous sort request flips the direction |
| App.EditBetweenSortsRestartsToggle | script.js:336-360 | two requests for one key alternate directions, but with a saved edit between them the second sorts descending |

## Left out

- Leaflet map setup, markers, popups, the "show all" bounds, and the drawn
  polyline length (`script.js:128-174`, `392-425`). These are calls into a
  foreign library.
- Geolocation and the reverse-geocoding `fetch` (`script.js:118-126`,
  `245-258`). These are network and asynchronous I/O. The lookup result
  enters as `Option<Place>`. The choice among `city`, `town` and `village`
  is not modelled.
- HTML rendering, showing, hiding and toggling form fields, and `toFixed`
  display (`script.js:176-218`, `427-480`). These are user-interface only.
  The exception is the edit form's pre-filled values (`script.js:182-188`),
  which `Store.FormOf` models.
  The effect of `location.reload` (`script.js:338`, `350`) on the sort toggle
  is modelled by `App.Step`. Its effect on the list is modelled as none,
  because the list was stored just before the reload.
- The click dispatch in `_moveToPopup` (`script.js:482-522`). The selected
  id and the sort key enter as parameters.
- `localStorage` JSON persistence and loading at start-up
  (`script.js:524-543`). These are host storage. JSON turns the date into a
  string, but `new Date(...)` reads back the same instant, so the sort by
  date is unaffected. The model assumes that reading the list back after a
  reload gives exactly the list stored before it.
- Id generation from `Date.now()` (`script.js:25`) depends on the clock, so
  the id is a parameter. The `clicks` counter is never read and is left
  out.
- IEEE floating point. Rounding, overflow to Infinity and `-0` are not
  modelled; arithmetic is exact on `real`. Reading a form field with `+`
  is not modelled either: the `Num` value arrives as given. An empty field
  reads as 0, so an empty elevation field passes the cycling check.
- Workout types other than running and cycling. The type is a two-value
  enum here. With any other type, the create path fails with a TypeError.
  The edit path skips both branches but still writes the unvalidated type,
  distance and duration (`script.js:333-335`).
- Workouts.NewRunning: requires positive distance and duration, because
  division by zero has no value on `real`. The constructor is only ever
  reached after validation.
- Workouts.NewCycling: requires positive distance and duration, for the same
  reason.
- Store.NewWorkout: appends the corrected place suffix, which is empty
  when the lookup failed. The source appends the text "undefined"; see
  "## Findings" and `Store.FailedLookupAsWritten`.
- Store.EditWorkout: when no entry has the id, the source throws a
  TypeError; the model returns `NotFound`. The list is unchanged either way.
- Store.EditWorkout: the description is not rewritten when the type changes,
  as in the source. A run edited into a ride still reads "Running on …".

## Findings

| source | as written | input that shows it | evidently intended | confidence | as-written member | corrected member |
|---|---|---|---|---|---|---|
| script.js:287 | `workout.description += currReverseGeopositionString` appends the value of `_whereThatWas`. That value is `undefined` when the lookup throws (`script.js:255-257`) | a valid run submitted while the reverse-geocoding request fails (offline): the description becomes `Running on May 5undefined` | when the lookup fails, the description is left without a place suffix | high; not executed | Store.FailedLookupAsWritten | Store.FailedLookupLeavesDescriptionBare |

=== FILE: app.dfy ===
/** One page session: the workout list together with the sort toggle
    (the `App` object).

    A saved edit and a confirmed delete store the list and end with
    `location.reload()` (script.js:338, 350). The reload builds a fresh
    `App` (script.js:546), which reads the list back from storage as it was
    just stored and starts the toggle again at `#reverseMode = false`,
    `#sortTargetPrev = null` (script.js:354-355). Creating a workout stores
    the list without reloading, so the toggle survives it. */
module App {
  import opened Common
  import opened Workouts
  import opened Validation
  import Store
  import Sorting

  datatype Session = Session(toggle: Sorting.SortState, workouts: seq<Workout>)

  /** What the user can do to the list: submit the create form, submit the
      edit form for the selected workout, answer the delete confirmation for
      it, or click a sort element. */
  datatype Action =
    | Create(form: Form, id: string, now: Stamp, at: Coords, place: Option<Place>)
    | Edit(target: string, edit: Form)
    | Delete(target: string, confirmed: bool)
    | Sort(key: Sorting.SortKey)

  /** Whether the action ends with a page reload. */
  predicate Reloads(s: Session, a: Action) {
    || (a.Edit? && Store.EditWorkout(s.workouts, a.target, a.edit).status == Store.Saved)
    || (a.Delete? && a.confirmed)
  }

  /** The session after one action. */
  function Step(s: Session, a: Action): (r: Session)
    requires a.Create? ==> a.now.Valid()
    ensures Reloads(s, a) ==> r.toggle == Sorting.Initial
    ensures !Reloads(s, a) && !a.Sort? ==> r.toggle == s.toggle
    ensures a.Sort? ==> r.toggle.previous == Some(a.key)
    ensures a.Sort? ==> (r.toggle.reverse != s.toggle.reverse <==> s.toggle.previous == Some(a.key))
    ensures a.Sort? ==> (r.toggle, r.workouts) == Sorting.SortWorkouts(s.toggle, s.workouts, a.key)
    ensures a.Sort? ==> multiset(r.workouts) == multiset(s.workouts)
    ensures a.Sort? ==> Sorting.Sorted(r.workouts, a.key, r.toggle.reverse)
    ensures a.Create? ==> r.workouts == Store.NewWorkout(s.workouts, a.form, a.id, a.now, a.at, a.place).workouts
    ensures a.Create? ==> (|r.workouts| == |s.workouts| + 1 <==> Accepts(a.form))
    ensures a.Edit? ==> r.workouts == Store.EditWorkout(s.workouts, a.target, a.edit).workouts
    ensures a.Delete? ==> r.workouts == Store.DeleteWorkout(s.workouts, a.target, a.confirmed)
    ensures a.Delete? && !a.confirmed ==> r == s
    ensures AllWellFormed(s.workouts) ==> AllWellFormed(r.workouts)
  {
    match a
    case Create(f, id, now, at, place) =>
      var o := Store.NewWorkout(s.workouts, f, id, now, at, place);
      Session(s.toggle, o.workouts)
    case Edit(target, f) =>
      var o := Store.EditWorkout(s.workouts, target, f);
      Session(if o.status == Store.Saved then Sorting.Initial else s.toggle, o.workouts)
    case Delete(target, confirmed) =>
      var ws := Store.DeleteWorkout(s.workouts, target, confirmed);
      Session(if confirmed then Sorting.Initial else s.toggle, ws)
    case Sort(k) =>
      var (t, ws) := Sorting.SortWorkouts(s.toggle, s.workouts, k);
      Sorting.MembersOfPermutation(ws, s.workouts);
      Session(t, ws)
  }

  /** After a saved edit or a confirmed delete, a request for any key,
      including the one requested just before, sorts descending: the reload
      has forgotten the previous key and the direction. */
  lemma ReloadForgetsToggle(s: Session, a: Action, k: Sorting.SortKey)
    requires a.Create? ==> a.now.Valid()
    requires Reloads(s, a)
    ensures var r := Step(Step(s, a), Sort(k));
            && !r.toggle.reverse
            && Sorting.Sorted(r.workouts, k, false)
  {
  }

  /** A create does not reload: repeating the previous request after it
      flips the direction. */
  lemma CreateKeepsToggle(s: Session, f: Form, id: string, now: Stamp, at: Coords, place: Option<Place>, k: Sorting.SortKey)
    requires now.Valid()
    requires s.toggle.previous == Some(k)
    ensures var r := Step(Step(s, Create(f, id, now, at, place)), Sort(k));
            r.toggle.reverse == !s.toggle.reverse
  {
  }

  /** Without a reload in between, requesting the same key twice shows the
      two directions one after the other; with a saved edit in between,
      the second request sorts descending whatever the first did. */
  lemma EditBetweenSortsRestartsToggle(s: Session, target: string, f: Form, k: Sorting.SortKey)
    requires Store.EditWorkout(Step(s, Sort(k)).workouts, target, f).status == Store.Saved
    ensures Step(Step(s, Sort(k)), Sort(k)).toggle.reverse == !Step(s, Sort(k)).toggle.reverse
    ensures !Step(Step(Step(s, Sort(k)), Edit(target, f)), Sort(k)).toggle.reverse
  {
  }
}

=== FILE: common.dfy ===
/** Small shared datatypes. */
module Common {

  /** A value that may be missing (JavaScript's `undefined`/`null`). */
  datatype Option<+T> = None | Some(value: T)
}

=== FILE: descriptions.dfy ===
/** Reading a workout description back into its parts. The parser is the
    inverse of `Workouts.Description`: the two lemmas below show that every
    description (with any place suffix that does not start with a digit)
    parses back to the type, month and day it was written from, and that
    every string the parser accepts is such a description. */
module Descriptions {
  import opened Common
  import opened Workouts
  import Text

  /** The type, month index, day of month and whatever follows the day
      (the place suffix, if any). */
  datatype Parts = Parts(kind: Kind, month: nat, day: nat, rest: string)

  /** The type from the first eleven characters, "Running on " or "Cycling on ". */
  function KindOfHead(head: string): (r: Option<Kind>)
    ensures r.Some? ==> head == Text.Capitalize(TypeName(r.value)) + " on "
  {
    if head == "Running on " then Some(Running)
    else if head == "Cycling on " then Some(Cycling)
    else None
  }

  /** The index of a month name, if it is one. */
  function MonthIndex(name: string): (r: Option<nat>)
    ensures r.Some? ==> r.value < 12 && Months[r.value] == name
  {
    if name == "January" then Some(0)
    else if name == "February" then Some(1)
    else if name == "March" then Some(2)
    else if name == "April" then Some(3)
    else if name == "May" then Some(4)
    else if name == "June" then Some(5)
    else if name == "July" then Some(6)
    else if name == "August" then Some(7)
    else if name == "September" then Some(8)
    else if name == "October" then Some(9)
    else if name == "November" then Some(10)
    else if name == "December" then Some(11)
    else None
  }

  /** A canonical numeral and what follows it. */
  function ParseDay(s: string): (r: Option<(nat, string)>)
  {
    var len := Text.Span(s, Text.Digits);
    if !Text.Canonical(s[..len]) then None
    else Some((Text.DigitsValue(s[..len]), s[len..]))
  }

  /** A month name, one space, a day, and what follows the day. */
  function ParseDate(s: string): (r: Option<(nat, nat, string)>)
    ensures r.Some? ==> r.value.0 < 12
  {
    var n := Text.Span(s, Text.NonSpace);
    if n == |s| then None
    else
      var month, day := MonthIndex(s[..n]), ParseDay(s[n + 1..]);
      if month.None? || day.None? then None
      else Some((month.value, day.value.0, day.value.1))
  }

  function ParseDescription(s: string): (r: Option<Parts>)
    ensures r.Some? ==> r.value.month < 12
  {
    if |s| < 11 then None
    else match KindOfHead(s[..11])
      case None => None
      case Some(k) =>
        match ParseDate(s[11..])
        case None => None
        case Some((m, day, rest)) => Some(Parts(k, m, day, rest))
  }

  lemma MonthNamesHaveNoSpace(m: nat)
    requires m < 12
    ensures forall i :: 0 <= i < |Months[m]| ==> Text.InClass(Months[m][i], Text.NonSpace)
  {
  }

  lemma MonthIndexOfName(m: nat)
    requires m < 12
    ensures MonthIndex(Months[m]) == Some(m)
  {
  }

  lemma {:induction false} ParseDayOfDecimal(day: nat, rest: string)
    requires |rest| > 0 ==> !Text.IsDigit(rest[0])
    ensures ParseDay(Text.Decimal(day) + rest) == Some((day, rest))
  {
    var digits := Text.Decimal(day);
    var s := digits + rest;
    Text.SpanOfPrefix(digits, rest, Text.Digits);
    assert s[..|digits|] == digits;
    assert s[|digits|..] == rest;
    Text.ValueOfDecimal(day);
  }

  lemma {:induction false} DecimalOfParseDay(s: string)
    requires ParseDay(s).Some?
    ensures Text.Decimal(ParseDay(s).value.0) + ParseDay(s).value.1 == s
  {
    var len := Text.Span(s, Text.Digits);
    Text.DecimalOfValue(s[..len]);
    assert s == s[..len] + s[len..];
  }

  lemma ParseDateFrom(s: string, n: nat, m: nat, day: nat, rest: string)
    requires Text.Span(s, Text.NonSpace) == n && n < |s|
    requires MonthIndex(s[..n]) == Some(m) && ParseDay(s[n + 1..]) == Some((day, rest))
    ensures ParseDate(s) == Some((m, day, rest))
  {
  }

  /** A month name followed by a space and `tail` spans exactly the name. */
  lemma DateSplit(month: nat, tail: string)
    requires month < 12
    ensures var s := Months[month] + " " + tail;
            var n := |Months[month]|;
            && Text.Span(s, Text.NonSpace) == n && n < |s|
            && s[..n] == Months[month] && s[n + 1..] == tail
  {
    var name := Months[month];
    var s := name + " " + tail;
    assert s == name + ([' '] + tail);
    MonthNamesHaveNoSpace(month);
    Text.SpanOfPrefix(name, [' '] + tail, Text.NonSpace);
    assert s[..|name|] == name;
    assert s[|name| + 1..] == tail;
  }

  lemma {:induction false} ParseDateOfDate(month: nat, day: nat, rest: string)
    requires month < 12
    requires |rest| > 0 ==> !Text.IsDigit(rest[0])
    ensures ParseDate(Months[month] + " " + Text.Decimal(day) + rest) == Some((month, day, rest))
  {
    var tail := Text.Decimal(day) + rest;
    var s := Months[month] + " " + tail;
    assert Months[month] + " " + Text.Decimal(day) + rest == s;
    DateSplit(month, tail);
    MonthIndexOfName(month);
    ParseDayOfDecimal(day, rest);
    ParseDateFrom(s, |Months[month]|, month, day, rest);
  }

  lemma ParseDateParts(s: string)
    requires ParseDate(s).Some?
    ensures var n := Text.Span(s, Text.NonSpace);
            var (m, day, rest) := ParseDate(s).value;
            && n < |s| && s[n] == ' ' && Months[m] == s[..n]
            && ParseDay(s[n + 1..]) == Some((day, rest))
  {
  }

  lemma {:induction false} DateOfParseDate(s: string)
    requires ParseDate(s).Some?
    ensures var (m, day, rest) := ParseDate(s).value;
            Months[m] + " " + Text.Decimal(day) + rest == s
  {
    var (m, day, rest) := ParseDate(s).value;
    var n := Text.Span(s, Text.NonSpace);
    ParseDateParts(s);
    DecimalOfParseDay(s[n + 1..]);
    Rejoin(s, n, Months[m], Text.Decimal(day), rest);
  }

  lemma Rejoin(s: string, n: nat, name: string, digits: string, rest: string)
    requires n < |s| && s[n] == ' ' && name == s[..n]
    requires digits + rest == s[n + 1..]
    ensures name + " " + digits + rest == s
  {
    assert s == s[..n] + ([' '] + s[n + 1..]);
  }

  /** The first eleven characters of a description name its type. */
  lemma HeadOfKind(k: Kind)
    ensures |Text.Capitalize(TypeName(k)) + " on "| == 11
    ensures KindOfHead(Text.Capitalize(TypeName(k)) + " on ") == Some(k)
  {
    match k
    case Running =>
      assert Text.Capitalize(TypeName(k)) + " on " == "Running on ";
    case Cycling =>
      assert Text.Capitalize(TypeName(k)) + " on " == "Cycling on ";
  }

  lemma DescriptionSplit(k: Kind, month: nat, day: nat, rest: string)
    requires month < 12
    ensures Description(k, month, day) + rest
            == (Text.Capitalize(TypeName(k)) + " on ") + (Months[month] + " " + Text.Decimal(day) + rest)
  {
  }

  /** Every description parses back to the type, month and day it was
      written from, and to the suffix that follows the day. */
  lemma {:induction false} ParseOfDescription(k: Kind, month: nat, day: nat, rest: string)
    requires month < 12
    requires |rest| > 0 ==> !Text.IsDigit(rest[0])
    ensures ParseDescription(Description(k, month, day) + rest) == Some(Parts(k, month, day, rest))
  {
    var head := Text.Capitalize(TypeName(k)) + " on ";
    var date := Months[month] + " " + Text.Decimal(day) + rest;
    var s := Description(k, month, day) + rest;
    DescriptionSplit(k, month, day, rest);
    HeadOfKind(k);
    assert s[..11] == head && s[11..] == date;
    ParseDateOfDate(month, day, rest);
  }

  lemma ParseDescriptionParts(s: string)
    requires ParseDescription(s).Some?
    ensures |s| >= 11
    ensures var p := ParseDescription(s).value;
            && KindOfHead(s[..11]) == Some(p.kind)
            && ParseDate(s[11..]) == Some((p.month, p.day, p.rest))
  {
  }

  /** Every string the parser accepts is a description followed by the
      suffix the parser returned. */
  lemma {:induction false} DescriptionOfParse(s: string)
    requires ParseDescription(s).Some?
    ensures var p := ParseDescription(s).value;
            Description(p.kind, p.month, p.day) + p.rest == s
  {
    var p := ParseDescription(s).value;
    ParseDescriptionParts(s);
    var head := s[..11];
    var date := s[11..];
    DateOfParseDate(date);
    assert date == Months[p.month] + " " + Text.Decimal(p.day) + p.rest;
    assert head == Text.Capitalize(TypeName(p.kind)) + " on ";
    DescriptionSplit(p.kind, p.month, p.day, p.rest);
    assert s == head + date;
  }
}

=== FILE: sorting.dfy ===
/** Sorting the workout list (`_sortWorkouts`).

    The state is `#reverseMode` and `#sortTargetPrev`. Choosing the key that
    was chosen last time flips the direction; choosing another key keeps the
    direction and only remembers the key. The list is then sorted with
    `Array.prototype.sort`, which is stable: by descending key when
    `reverseMode` is false and by ascending key when it is true. The key is
    the raw numeric field (sentinels included) or, for `date`, the
    timestamp. The model orders the list itself; the sidebar shows it
    reversed, because each entry is inserted right after the form
    (script.js:478), so a descending list is displayed ascending. */
module Sorting {
  import opened Common
  import opened Workouts

  /** The ids of the clickable elements that request a sort. */
  datatype SortKey = Date | Duration | Distance | Speed | ElevationGain | Pace | Cadence

  /** The number the comparator subtracts. */
  function Rank(w: Workout, k: SortKey): real {
    match k
    case Date => w.date.millis as real
    case Duration => w.duration
    case Distance => w.distance
    case Speed => w.speed
    case ElevationGain => w.elevationGain
    case Pace => w.pace
    case Cadence => w.cadence
  }

  /** `#reverseMode` and `#sortTargetPrev`. */
  datatype SortState = SortState(reverse: bool, previous: Option<SortKey>)

  /** `#reverseMode = false`, `#sortTargetPrev = null`. */
  const Initial: SortState := SortState(false, None)

  /** The state update at the start of `_sortWorkouts`. */
  function Toggle(s: SortState, k: SortKey): (t: SortState)
    ensures t.previous == Some(k)
    ensures t.reverse != s.reverse <==> s.previous == Some(k)
  {
    SortState(if s.previous == Some(k) then !s.reverse else s.reverse, Some(k))
  }

  /** `a` may come before `b`: `a <= b` ascending, `a >= b` descending. */
  predicate InOrder(ascending: bool, a: real, b: real) {
    if ascending then a <= b else b <= a
  }

  predicate Sorted(s: seq<Workout>, k: SortKey, ascending: bool) {
    forall i, j :: 0 <= i < j < |s| ==> InOrder(ascending, Rank(s[i], k), Rank(s[j], k))
  }

  /** Insert `x` in front of the first element it may precede. */
  function Insert(x: Workout, t: seq<Workout>, k: SortKey, ascending: bool): (r: seq<Workout>)
    ensures multiset(r) == multiset(t) + multiset{x}
  {
    if |t| == 0 then [x]
    else if InOrder(ascending, Rank(x, k), Rank(t[0], k)) then [x] + t
    else
      assert t == [t[0]] + t[1..];
      [t[0]] + Insert(x, t[1..], k, ascending)
  }

  /** The stable sort: each element is inserted, front to back of the
      input, ahead of the equal-keyed elements that follow it. */
  function SortBy(s: seq<Workout>, k: SortKey, ascending: bool): (r: seq<Workout>)
    ensures multiset(r) == multiset(s)
  {
    if |s| == 0 then []
    else
      assert s == [s[0]] + s[1..];
      Insert(s[0], SortBy(s[1..], k, ascending), k, ascending)
  }

  /** Every entry of an insertion is the inserted one or an old one. */
  lemma InsertMembers(x: Workout, t: seq<Workout>, k: SortKey, ascending: bool)
    ensures forall y :: y in Insert(x, t, k, ascending) ==> y == x || y in t
  {
    forall y | y in Insert(x, t, k, ascending)
      ensures y == x || y in t
    {
      assert y in multiset(Insert(x, t, k, ascending));
    }
  }

  lemma {:induction false} InsertSorted(x: Workout, t: seq<Workout>, k: SortKey, ascending: bool)
    requires Sorted(t, k, ascending)
    ensures Sorted(Insert(x, t, k, ascending), k, ascending)
  {
    if |t| > 0 && !InOrder(ascending, Rank(x, k), Rank(t[0], k)) {
      var y, u := t[0], t[1..];
      var rest := Insert(x, u, k, ascending);
      assert Insert(x, t, k, ascending) == [y] + rest;
      InsertSorted(x, u, k, ascending);
      InsertMembers(x, u, k, ascending);
      assert forall z :: z in u ==> InOrder(ascending, Rank(y, k), Rank(z, k));
      assert forall z :: z in rest ==> InOrder(ascending, Rank(y, k), Rank(z, k));
      ConsSorted(y, rest, k, ascending);
    }
  }

  /** An entry that may precede every entry of a sorted list may be put in
      front of it. */
  lemma ConsSorted(y: Workout, rest: seq<Workout>, k: SortKey, ascending: bool)
    requires Sorted(rest, k, ascending)
    requires forall z :: z in rest ==> InOrder(ascending, Rank(y, k), Rank(z, k))
    ensures Sorted([y] + rest, k, ascending)
  {
    var r := [y] + rest;
    forall i, j | 0 <= i < j < |r|
      ensures InOrder(ascending, Rank(r[i], k), Rank(r[j], k))
    {
      assert r[j] == rest[j - 1];
      if i > 0 {
        assert r[i] == rest[i - 1];
      }
    }
  }

  /** The result is ordered by the key in the requested direction. */
  lemma {:induction false} SortBySorted(s: seq<Workout>, k: SortKey, ascending: bool)
    ensures Sorted(SortBy(s, k, ascending), k, ascending)
  {
    if |s| > 0 {
      SortBySorted(s[1..], k, ascending);
      InsertSorted(s[0], SortBy(s[1..], k, ascending), k, ascending);
    }
  }

  /** The entries whose key equals `v`, in their order. */
  function WithRank(s: seq<Workout>, k: SortKey, v: real): seq<Workout> {
    if |s| == 0 then []
    else (if Rank(s[0], k) == v then [s[0]] else []) + WithRank(s[1..], k, v)
  }

  lemma WithRankCons(x: Workout, t: seq<Workout>, k: SortKey, v: real)
    ensures WithRank([x] + t, k, v) == (if Rank(x, k) == v then [x] else []) + WithRank(t, k, v)
  {
    assert ([x] + t)[1..] == t;
  }

  /** Two neighbours with different keys can trade places without changing
      any key's sub-sequence. */
  lemma SwapDistinct(x: Workout, y: Workout, u: seq<Workout>, k: SortKey, v: real)
    requires Rank(x, k) != Rank(y, k)
    ensures WithRank([y] + ([x] + u), k, v) == WithRank([x] + ([y] + u), k, v)
  {
    WithRankCons(y, [x] + u, k, v);
    WithRankCons(x, u, k, v);
    WithRankCons(x, [y] + u, k, v);
    WithRankCons(y, u, k, v);
  }

  lemma {:induction false} InsertStable(x: Workout, t: seq<Workout>, k: SortKey, ascending: bool, v: real)
    ensures WithRank(Insert(x, t, k, ascending), k, v) == WithRank([x] + t, k, v)
  {
    if |t| > 0 && !InOrder(ascending, Rank(x, k), Rank(t[0], k)) {
      var y, u := t[0], t[1..];
      assert t == [y] + u;
      var inserted := Insert(x, u, k, ascending);
      assert Insert(x, t, k, ascending) == [y] + inserted;
      InsertStable(x, u, k, ascending, v);
      WithRankCons(y, inserted, k, v);
      WithRankCons(y, [x] + u, k, v);
      assert WithRank([y] + inserted, k, v) == WithRank([y] + ([x] + u), k, v);
      SwapDistinct(x, y, u, k, v);
    }
  }

  /** Stability: for every key value, the entries with that value appear in
      the result in the same order as in the input. */
  lemma {:induction false} SortByStable(s: seq<Workout>, k: SortKey, ascending: bool, v: real)
    ensures WithRank(SortBy(s, k, ascending), k, v) == WithRank(s, k, v)
  {
    if |s| > 0 {
      var x, u := s[0], s[1..];
      var sorted := SortBy(u, k, ascending);
      assert SortBy(s, k, ascending) == Insert(x, sorted, k, ascending);
      SortByStable(u, k, ascending, v);
      InsertStable(x, sorted, k, ascending, v);
      WithRankCons(x, sorted, k, v);
      WithRankCons(x, u, k, v);
      assert s == [x] + u;
    }
  }

  /** An already ordered list is left as it is. */
  lemma {:induction false} SortedIsFixed(s: seq<Workout>, k: SortKey, ascending: bool)
    requires Sorted(s, k, ascending)
    ensures SortBy(s, k, ascending) == s
  {
    if |s| > 0 {
      SortedIsFixed(s[1..], k, ascending);
      assert s == [s[0]] + s[1..];
    }
  }

  /** Sorting twice in the same direction is sorting once. */
  lemma SortByIdempotent(s: seq<Workout>, k: SortKey, ascending: bool)
    ensures SortBy(SortBy(s, k, ascending), k, ascending) == SortBy(s, k, ascending)
  {
    SortBySorted(s, k, ascending);
    SortedIsFixed(SortBy(s, k, ascending), k, ascending);
  }

  /** No two different entries share a key value. */
  predicate DistinctRanks(s: seq<Workout>, k: SortKey) {
    forall x, y :: x in s && y in s && Rank(x, k) == Rank(y, k) ==> x == y
  }

  /** A permutation has the same members as the list it permutes. */
  lemma MembersOfPermutation(r: seq<Workout>, s: seq<Workout>)
    requires multiset(r) == multiset(s)
    ensures forall x :: x in r <==> x in s
    ensures forall i :: 0 <= i < |r| ==> r[i] in s
  {
    forall x
      ensures x in r <==> x in s
    {
      assert x in r <==> x in multiset(r);
      assert x in s <==> x in multiset(s);
    }
  }

  /** Distinct keys survive a permutation. */
  lemma DistinctRanksOfPermutation(r: seq<Workout>, s: seq<Workout>, k: SortKey)
    requires multiset(r) == multiset(s) && DistinctRanks(s, k)
    ensures DistinctRanks(r, k)
  {
    MembersOfPermutation(r, s);
  }

  function Reverse(s: seq<Workout>): (r: seq<Workout>)
    ensures |r| == |s| && forall i :: 0 <= i < |s| ==> r[i] == s[|s| - 1 - i]
  {
    if |s| == 0 then [] else Reverse(s[1..]) + [s[0]]
  }

  lemma {:induction false} ReverseMultiset(s: seq<Workout>)
    ensures multiset(Reverse(s)) == multiset(s)
  {
    if |s| > 0 {
      ReverseMultiset(s[1..]);
      assert s == [s[0]] + s[1..];
    }
  }

  lemma ReverseSorted(s: seq<Workout>, k: SortKey, ascending: bool)
    requires Sorted(s, k, ascending)
    ensures Sorted(Reverse(s), k, !ascending)
  {
    var r := Reverse(s);
    var n := |s|;
    forall i, j | 0 <= i < j < n
      ensures InOrder(!ascending, Rank(r[i], k), Rank(r[j], k))
    {
      var p, q := n - 1 - j, n - 1 - i;
      assert 0 <= p < q < n;
      assert r[i] == s[q] && r[j] == s[p];
      assert InOrder(ascending, Rank(s[p], k), Rank(s[q], k));
    }
  }

  lemma SortedSameHead(a: seq<Workout>, b: seq<Workout>, k: SortKey, ascending: bool)
    requires |a| > 0 && multiset(a) == multiset(b)
    requires Sorted(a, k, ascending) && Sorted(b, k, ascending) && DistinctRanks(a, k)
    ensures |b| > 0 && a[0] == b[0]
  {
    assert a[0] in multiset(b);
    assert b[0] in multiset(a);
    var i :| 0 <= i < |a| && a[i] == b[0];
    var j :| 0 <= j < |b| && b[j] == a[0];
    assert InOrder(ascending, Rank(a[0], k), Rank(b[0], k)) by {
      if i > 0 { assert InOrder(ascending, Rank(a[0], k), Rank(a[i], k)); }
    }
    assert InOrder(ascending, Rank(b[0], k), Rank(a[0], k)) by {
      if j > 0 { assert InOrder(ascending, Rank(b[0], k), Rank(b[j], k)); }
    }
  }

  lemma SameTails(a: seq<Workout>, b: seq<Workout>)
    requires |a| > 0 && |b| > 0 && a[0] == b[0] && multiset(a) == multiset(b)
    ensures multiset(a[1..]) == multiset(b[1..])
  {
    assert a == [a[0]] + a[1..] && b == [b[0]] + b[1..];
    assert multiset(a[1..]) == multiset(a) - multiset{a[0]};
    assert multiset(b[1..]) == multiset(b) - multiset{b[0]};
  }

  /** Two orderings of the same entries, both sorted in one direction, are
      the same list when no two different entries share a key. */
  lemma {:induction false} SortedUnique(a: seq<Workout>, b: seq<Workout>, k: SortKey, ascending: bool)
    requires multiset(a) == multiset(b)
    requires Sorted(a, k, ascending) && Sorted(b, k, ascending) && DistinctRanks(a, k)
    ensures a == b
  {
    if |a| == 0 {
      assert |b| == |multiset(b)| == 0;
    } else {
      SortedSameHead(a, b, k, ascending);
      SameTails(a, b);
      assert forall x :: x in a[1..] ==> x in a;
      SortedUnique(a[1..], b[1..], k, ascending);
      assert a == [a[0]] + a[1..] && b == [b[0]] + b[1..];
    }
  }

  /** With no two different entries sharing a key, sorting in the opposite
      direction gives exactly the reverse order. */
  lemma OppositeDirectionReverses(s: seq<Workout>, k: SortKey, ascending: bool)
    requires DistinctRanks(s, k)
    ensures SortBy(s, k, !ascending) == Reverse(SortBy(s, k, ascending))
  {
    var up := SortBy(s, k, ascending);
    var down := SortBy(s, k, !ascending);
    SortBySorted(s, k, ascending);
    SortBySorted(s, k, !ascending);
    ReverseMultiset(up);
    var r := Reverse(up);
    ReverseSorted(up, k, ascending);
    DistinctRanksOfPermutation(down, s, k);
    SortedUnique(down, r, k, !ascending);
  }

  /** A sort request: update the toggle state, then sort the list,
      ascending exactly when the new `reverseMode` is true. */
  function SortWorkouts(st: SortState, ws: seq<Workout>, k: SortKey): (r: (SortState, seq<Workout>))
    ensures r.0.previous == Some(k)
    ensures r.0.reverse != st.reverse <==> st.previous == Some(k)
    ensures multiset(r.1) == multiset(ws)
    ensures Sorted(r.1, k, r.0.reverse)
  {
    var t := Toggle(st, k);
    SortBySorted(ws, k, t.reverse);
    (t, SortBy(ws, k, t.reverse))
  }

  /** From the initial state, repeated requests for one key sort descending,
      then ascending, then descending again. */
  lemma RepeatedRequestsAlternate(ws: seq<Workout>, k: SortKey)
    ensures var (s1, l1) := SortWorkouts(Initial, ws, k);
            var (s2, l2) := SortWorkouts(s1, l1, k);
            var (s3, l3) := SortWorkouts(s2, l2, k);
            && Sorted(l1, k, false) && Sorted(l2, k, true) && Sorted(l3, k, false)
  {
  }

  /** Switching to another key keeps the direction of the previous sort. */
  lemma OtherKeyKeepsDirection(st: SortState, ws: seq<Workout>, k: SortKey)
    requires st.previous != Some(k)
    ensures Sorted(SortWorkouts(st, ws, k).1, k, st.reverse)
  {
  }

  /** A second request for the same key, when no two different entries
      share that key, shows the list in exactly the reverse order. */
  lemma SecondRequestReverses(st: SortState, ws: seq<Workout>, k: SortKey)
    requires DistinctRanks(ws, k)
    ensures var (s1, l1) := SortWorkouts(st, ws, k);
            SortWorkouts(s1, l1, k).1 == Reverse(l1)
  {
    var (s1, l1) := SortWorkouts(st, ws, k);
    assert s1.previous == Some(k);
    DistinctRanksOfPermutation(l1, ws, k);
    SortedIsFixed(l1, k, s1.reverse);
    OppositeDirectionReverses(l1, k, s1.reverse);
  }
}

=== FILE: store.dfy ===
/** The list of workouts (`App.#workouts`) and the three operations that
    change it: create (`_newWorkout`), edit (`_editWorkout`) and delete
    (`_deleteWorkout`). Each takes the list and returns the new list; what
    the browser supplies (clock, id, click point, geocoding result, the
    user's answer to the confirmation) arrives as parameters. */
module Store {
  import opened Common
  import opened Workouts
  import opened Validation
  import Descriptions
  import Text

  /** `Saved`: the list was changed and stored. `InvalidInput`: the
      "Inputs have to be positive numbers!" alert, nothing changed.
      `NotFound`: the edit target is not in the list, nothing changed. */
  datatype Status = Saved | InvalidInput | NotFound

  datatype Outcome = Outcome(workouts: seq<Workout>, status: Status)

  // ---------------------------------------------------------------- create

  /** The workout an accepted create form describes: `new Running(...)` or
      `new Cycling(...)`, then `description += suffix` (script.js:287), where
      `suffix` is whatever the place lookup produced. */
  function Build(f: Form, id: string, now: Stamp, at: Coords, suffix: string): (w: Workout)
    requires Accepts(f) && now.Valid()
    ensures WellFormed(w)
    ensures w.id == id && w.date == now && w.coords == at && w.kind == f.kind
    ensures f.distance == Finite(w.distance) && f.duration == Finite(w.duration)
    ensures f.kind == Running ==> f.cadence == Finite(w.cadence) && w.pace * w.distance == w.duration
    ensures f.kind == Cycling ==> f.elevation == Finite(w.elevationGain) && w.speed * (w.duration / 60.0) == w.distance
    ensures w.description == Description(f.kind, now.month, now.day) + suffix
  {
    AcceptedValues(f);
    var w := Constructed(f.kind, id, now, at, f.distance.value, f.duration.value, MetricOf(f));
    w.(description := w.description + suffix)
  }

  /** The value of the field the chosen type reads: cadence for running,
      elevation for cycling. */
  function MetricOf(f: Form): (m: real)
    requires Accepts(f)
    ensures f.kind == Running ==> f.cadence == Finite(m)
    ensures f.kind == Cycling ==> f.elevation == Finite(m)
  {
    AcceptedValues(f);
    match f.kind
    case Running => f.cadence.value
    case Cycling => f.elevation.value
  }

  /** `new Running(...)` or `new Cycling(...)`. */
  function Constructed(k: Kind, id: string, now: Stamp, at: Coords, distance: real, duration: real, metric: real): (w: Workout)
    requires distance > 0.0 && duration > 0.0 && now.Valid()
    ensures WellFormed(w) <==> (k == Running ==> metric > 0.0)
    ensures w.description == Description(k, now.month, now.day)
    ensures w.id == id && w.date == now && w.coords == at && w.kind == k
    ensures w.distance == distance && w.duration == duration
    ensures k == Running ==> w.cadence == metric && w.pace * distance == duration
    ensures k == Cycling ==> w.elevationGain == metric && w.speed * (duration / 60.0) == distance
  {
    match k
    case Running => NewRunning(id, now, at, distance, duration, metric)
    case Cycling => NewCycling(id, now, at, distance, duration, metric)
  }

  /** Submitting the create form: validate, then append the new workout.
      The description gets the corrected place suffix (nothing when the
      lookup failed); `FailedLookupAsWritten` shows what the source
      appends instead. */
  function NewWorkout(ws: seq<Workout>, f: Form, id: string, now: Stamp, at: Coords, place: Option<Place>): (r: Outcome)
    requires now.Valid()
    ensures r.status != NotFound
    ensures r.status == InvalidInput <==> !Accepts(f)
    ensures r.status == InvalidInput ==> r.workouts == ws
    ensures r.status == Saved ==>
      && |r.workouts| == |ws| + 1
      && r.workouts[..|ws|] == ws
      && r.workouts[|ws|] == Build(f, id, now, at, PlaceSuffix(place))
    ensures AllWellFormed(ws) ==> AllWellFormed(r.workouts)
  {
    if !Accepts(f) then Outcome(ws, InvalidInput)
    else
      var r := ws + [Build(f, id, now, at, PlaceSuffix(place))];
      assert r[..|ws|] == ws;
      Outcome(r, Saved)
  }

  /** A run of 5 km in 30 min at cadence 150 is saved with a pace of 6 min/km
      and a description that starts with "Running on ". */
  lemma RunningExample(ws: seq<Workout>, id: string, now: Stamp, place: Option<Place>)
    requires now.Valid()
    ensures var r := NewWorkout(ws, Form(Running, Finite(5.0), Finite(30.0), Finite(150.0), Finite(0.0)),
                                id, now, Coords(10.0, 20.0), place);
            && r.status == Saved
            && r.workouts[|ws|].pace == 6.0
            && r.workouts[|ws|].speed == Sentinel
            && r.workouts[|ws|].description[..11] == "Running on "
  {
    var f := Form(Running, Finite(5.0), Finite(30.0), Finite(150.0), Finite(0.0));
    AcceptedValues(f);
    var w := Build(f, id, now, Coords(10.0, 20.0), PlaceSuffix(place));
    assert Text.Capitalize("running") == "Running";
    assert w.description[..11] == "Running on ";
  }

  /** A ride of 20 km in 60 min with 300 m climbed is saved with a speed of
      20 km/h. */
  lemma CyclingExample(ws: seq<Workout>, id: string, now: Stamp, place: Option<Place>)
    requires now.Valid()
    ensures var r := NewWorkout(ws, Form(Cycling, Finite(20.0), Finite(60.0), Finite(0.0), Finite(300.0)),
                                id, now, Coords(10.0, 20.0), place);
            && r.status == Saved
            && r.workouts[|ws|].speed == 20.0
            && r.workouts[|ws|].elevationGain == 300.0
            && r.workouts[|ws|].pace == Sentinel && r.workouts[|ws|].cadence == Sentinel
  {
    AcceptedValues(Form(Cycling, Finite(20.0), Finite(60.0), Finite(0.0), Finite(300.0)));
  }

  /** A negative distance is refused and the list stays as it was. */
  lemma NegativeDistanceRejected(ws: seq<Workout>, k: Kind, duration: Num, cadence: Num, elevation: Num,
                                 id: string, now: Stamp, at: Coords, place: Option<Place>)
    requires now.Valid()
    ensures var r := NewWorkout(ws, Form(k, Finite(-1.0), duration, cadence, elevation), id, now, at, place);
            r.status == InvalidInput && r.workouts == ws
  {
    AcceptedValues(Form(k, Finite(-1.0), duration, cadence, elevation));
  }

  // ------------------------------------------------------------------ edit

  /** The position `#workouts.find(work => work.id === id)` selects. */
  function FirstIndexOf(ws: seq<Workout>, id: string): (r: Option<nat>)
    ensures r.None? <==> forall i :: 0 <= i < |ws| ==> ws[i].id != id
    ensures r.Some? ==> r.value < |ws| && ws[r.value].id == id
    ensures r.Some? ==> forall j :: 0 <= j < r.value ==> ws[j].id != id
  {
    if |ws| == 0 then None
    else if ws[0].id == id then Some(0)
    else match FirstIndexOf(ws[1..], id)
      case None => None
      case Some(i) => Some(i + 1)
  }

  /** A workout after an accepted edit form: type, distance, duration and
      the chosen type's metric pair replaced, the other pair reset to the
      sentinel, identity, date, coordinates and description kept. */
  function Edited(w: Workout, f: Form): (e: Workout)
    requires Accepts(f)
    ensures WellFormed(e)
    ensures e.id == w.id && e.date == w.date && e.coords == w.coords && e.description == w.description
    ensures e.kind == f.kind && f.distance == Finite(e.distance) && f.duration == Finite(e.duration)
    ensures f.kind == Running ==> f.cadence == Finite(e.cadence) && e.pace * e.distance == e.duration
    ensures f.kind == Cycling ==> f.elevation == Finite(e.elevationGain) && e.speed * (e.duration / 60.0) == e.distance
  {
    AcceptedValues(f);
    Reassigned(w, f.kind, f.distance.value, f.duration.value, MetricOf(f))
  }

  /** Submitting the edit form for the workout with the given id. */
  function EditWorkout(ws: seq<Workout>, id: string, f: Form): (r: Outcome)
    ensures r.status == InvalidInput <==> !Accepts(f)
    ensures r.status == NotFound <==> Accepts(f) && forall i :: 0 <= i < |ws| ==> ws[i].id != id
    ensures r.status != Saved ==> r.workouts == ws
    ensures r.status == Saved ==>
      var i := FirstIndexOf(ws, id).value;
      && |r.workouts| == |ws|
      && r.workouts[i] == Edited(ws[i], f)
      && forall j :: 0 <= j < |ws| && j != i ==> r.workouts[j] == ws[j]
    ensures AllWellFormed(ws) ==> AllWellFormed(r.workouts)
  {
    if !Accepts(f) then Outcome(ws, InvalidInput)
    else match FirstIndexOf(ws, id)
      case None => Outcome(ws, NotFound)
      case Some(i) => Outcome(ws[i := Edited(ws[i], f)], Saved)
  }

  /** The values `_showEditForm` pre-fills from a workout. */
  function FormOf(w: Workout): Form {
    Form(w.kind, Finite(w.distance), Finite(w.duration), Finite(w.cadence), Finite(w.elevationGain))
  }

  /** Submitting the pre-filled edit form unchanged gives back the same
      workout. */
  lemma EditUnchangedFormKeepsWorkout(w: Workout)
    requires WellFormed(w)
    ensures Accepts(FormOf(w)) && Edited(w, FormOf(w)) == w
  {
    AcceptedValues(FormOf(w));
  }

  /** Submitting the same edit twice is the same as submitting it once. */
  lemma EditIdempotent(ws: seq<Workout>, id: string, f: Form)
    ensures EditWorkout(EditWorkout(ws, id, f).workouts, id, f) == EditWorkout(ws, id, f)
  {
    var r := EditWorkout(ws, id, f);
    if r.status == Saved {
      var i := FirstIndexOf(ws, id).value;
      assert FirstIndexOf(r.workouts, id) == Some(i);
    }
  }

  // ---------------------------------------------------------------- delete

  /** How many entries carry the id. */
  function Count(ws: seq<Workout>, id: string): (n: nat)
    ensures n <= |ws|
  {
    if |ws| == 0 then 0 else (if ws[0].id == id then 1 else 0) + Count(ws[1..], id)
  }

  /** `a` is `b` with some entries left out, the rest in their order. */
  predicate Subsequence(a: seq<Workout>, b: seq<Workout>)
    decreases |b|
  {
    if |a| == 0 then true
    else if |b| == 0 then false
    else if a[0] == b[0] then Subsequence(a[1..], b[1..])
    else Subsequence(a, b[1..])
  }

  /** `ws.filter(e => e.id !== id)`. */
  function Remove(ws: seq<Workout>, id: string): seq<Workout>
  {
    if |ws| == 0 then []
    else if ws[0].id == id then Remove(ws[1..], id)
    else [ws[0]] + Remove(ws[1..], id)
  }

  /** What the filter keeps: the entries without the id, in their order,
      every one of them and nothing else. */
  lemma {:induction false} RemoveKeeps(ws: seq<Workout>, id: string)
    ensures var r := Remove(ws, id);
            && Subsequence(r, ws)
            && (forall i :: 0 <= i < |r| ==> r[i].id != id)
            && |r| == |ws| - Count(ws, id)
            && (forall w :: w in ws && w.id != id ==> w in r)
            && (forall i :: 0 <= i < |r| ==> r[i] in ws)
  {
    if |ws| > 0 {
      var r, t := Remove(ws, id), Remove(ws[1..], id);
      RemoveKeeps(ws[1..], id);
      assert ws == [ws[0]] + ws[1..];
      if ws[0].id != id {
        assert r == [ws[0]] + t;
        assert r[1..] == t;
        forall i | 1 <= i < |r|
          ensures r[i] == t[i - 1]
        {
        }
      }
    }
  }

  /** Deleting the selected workout, after the user answered the
      confirmation prompt. */
  function DeleteWorkout(ws: seq<Workout>, id: string, confirmed: bool): (r: seq<Workout>)
    ensures !confirmed ==> r == ws
    ensures confirmed ==> Subsequence(r, ws) && |r| == |ws| - Count(ws, id)
    ensures confirmed ==> forall i :: 0 <= i < |r| ==> r[i].id != id
    ensures confirmed ==> forall w :: w in ws && w.id != id ==> w in r
    ensures AllWellFormed(ws) ==> AllWellFormed(r)
  {
    RemoveKeeps(ws, id);
    if confirmed then Remove(ws, id) else ws
  }

  /** Deleting an id the list does not hold changes nothing. */
  lemma {:induction false} RemoveAbsent(ws: seq<Workout>, id: string)
    requires forall i :: 0 <= i < |ws| ==> ws[i].id != id
    ensures Remove(ws, id) == ws
  {
    if |ws| > 0 {
      RemoveAbsent(ws[1..], id);
    }
  }

  /** Deleting twice is deleting once. */
  lemma DeleteIdempotent(ws: seq<Workout>, id: string)
    ensures DeleteWorkout(DeleteWorkout(ws, id, true), id, true) == DeleteWorkout(ws, id, true)
  {
    RemoveKeeps(ws, id);
    RemoveAbsent(Remove(ws, id), id);
  }

  lemma {:induction false} RemoveAppend(ws: seq<Workout>, w: Workout, id: string)
    ensures Remove(ws + [w], id) == Remove(ws, id) + Remove([w], id)
  {
    if |ws| == 0 {
      assert ws + [w] == [w];
    } else {
      var x, u := ws[0], ws[1..];
      var kept := if x.id == id then [] else [x];
      assert (ws + [w])[0] == x && (ws + [w])[1..] == u + [w];
      assert Remove(ws + [w], id) == kept + Remove(u + [w], id);
      assert Remove(ws, id) == kept + Remove(u, id);
      RemoveAppend(u, w, id);
      assert kept + (Remove(u, id) + Remove([w], id)) == (kept + Remove(u, id)) + Remove([w], id);
    }
  }

  /** Deleting a workout just created under a fresh id restores the list. */
  lemma DeleteUndoesCreate(ws: seq<Workout>, f: Form, id: string, now: Stamp, at: Coords, place: Option<Place>)
    requires now.Valid() && Accepts(f)
    requires forall i :: 0 <= i < |ws| ==> ws[i].id != id
    ensures DeleteWorkout(NewWorkout(ws, f, id, now, at, place).workouts, id, true) == ws
  {
    var w := Build(f, id, now, at, PlaceSuffix(place));
    assert NewWorkout(ws, f, id, now, at, place).workouts == ws + [w];
    RemoveAppend(ws, w, id);
    RemoveAbsent(ws, id);
  }

  // ------------------------------------------------- the geocoding suffix

  /** As written, creating a workout while the place lookup fails appends
      the text "undefined" right after the day of the month, so the
      description differs from the one the corrected create operation
      produces. */
  lemma FailedLookupAsWritten(f: Form, id: string, now: Stamp, at: Coords)
    requires now.Valid() && Accepts(f)
    ensures PlaceSuffixAsWritten(None) == "undefined"
    ensures var w := Build(f, id, now, at, PlaceSuffixAsWritten(None));
            && w.description == Description(f.kind, now.month, now.day) + "undefined"
            && Descriptions.ParseDescription(w.description)
               == Some(Descriptions.Parts(f.kind, now.month, now.day, "undefined"))
            && w.description != Build(f, id, now, at, PlaceSuffix(None)).description
  {
    var d := Description(f.kind, now.month, now.day);
    assert |d + "undefined"| != |d + ""|;
    Descriptions.ParseOfDescription(f.kind, now.month, now.day, "undefined");
  }

  /** The description of a created workout reads back as its type, the
      month and day of its date, and the place suffix. */
  lemma CreatedDescriptionParses(ws: seq<Workout>, f: Form, id: string, now: Stamp, at: Coords, place: Option<Place>)
    requires now.Valid() && Accepts(f)
    ensures var w := NewWorkout(ws, f, id, now, at, place).workouts[|ws|];
            Descriptions.ParseDescription(w.description)
            == Some(Descriptions.Parts(w.kind, w.date.month, w.date.day, PlaceSuffix(place)))
  {
    Descriptions.ParseOfDescription(f.kind, now.month, now.day, PlaceSuffix(place));
  }

  /** With the corrected suffix, a workout created while the lookup failed
      has nothing after the day of the month. */
  lemma FailedLookupLeavesDescriptionBare(ws: seq<Workout>, f: Form, id: string, now: Stamp, at: Coords)
    requires now.Valid() && Accepts(f)
    ensures var w := NewWorkout(ws, f, id, now, at, None).workouts[|ws|];
            Descriptions.ParseDescription(w.description)
            == Some(Descriptions.Parts(f.kind, now.month, now.day, ""))
  {
    CreatedDescriptionParses(ws, f, id, now, at, None);
  }
}

=== FILE: text.dfy ===
/** Character and decimal-number helpers used by the workout description:
    upper-casing the first letter of the type name, and writing the day of
    the month as a decimal numeral (JavaScript's `${n}` on a whole number). */
module Text {

  /** ASCII upper-casing; characters other than `a`..`z` are left alone. */
  function Upper(c: char): (u: char)
    ensures 'a' <= c <= 'z' ==> 'A' <= u <= 'Z' && u as int - c as int == 'A' as int - 'a' as int
    ensures !('a' <= c <= 'z') ==> u == c
  {
    if 'a' <= c <= 'z' then (c as int - 'a' as int + 'A' as int) as char else c
  }

  /** `s[0].toUpperCase() + s.slice(1)`. */
  function Capitalize(s: string): (r: string)
    requires |s| > 0
    ensures |r| == |s| && r[1..] == s[1..]
    ensures r[0] == Upper(s[0])
  {
    [Upper(s[0])] + s[1..]
  }

  predicate IsDigit(c: char) {
    '0' <= c <= '9'
  }

  predicate AllDigits(s: string) {
    forall i :: 0 <= i < |s| ==> IsDigit(s[i])
  }

  /** A numeral as `String(n)` writes it: at least one digit, no leading zero
      unless the number is zero itself. */
  predicate Canonical(s: string) {
    |s| > 0 && AllDigits(s) && (|s| > 1 ==> s[0] != '0')
  }

  function DigitChar(d: nat): (c: char)
    requires d < 10
    ensures IsDigit(c)
  {
    ('0' as int + d) as char
  }

  function DigitOf(c: char): (d: nat)
    requires IsDigit(c)
    ensures d < 10 && DigitChar(d) == c
  {
    c as int - '0' as int
  }

  /** The decimal numeral of `n`, most significant digit first. */
  function Decimal(n: nat): (s: string)
    ensures Canonical(s)
    ensures n < 10 <==> |s| == 1
  {
    if n < 10 then [DigitChar(n)] else Decimal(n / 10) + [DigitChar(n % 10)]
  }

  /** The number a string of digits denotes (leading zeros allowed). */
  function DigitsValue(s: string): nat
    requires AllDigits(s)
  {
    if |s| == 0 then 0 else 10 * DigitsValue(s[..|s| - 1]) + DigitOf(s[|s| - 1])
  }

  /** Reading back a written number gives the number. */
  lemma {:induction false} ValueOfDecimal(n: nat)
    ensures DigitsValue(Decimal(n)) == n
  {
    var s := Decimal(n);
    if n >= 10 {
      ValueOfDecimal(n / 10);
      assert s[..|s| - 1] == Decimal(n / 10);
      assert DigitOf(s[|s| - 1]) == n % 10;
    }
  }

  lemma {:induction false} LeadingNonZeroIsPositive(s: string)
    requires |s| > 0 && AllDigits(s) && s[0] != '0'
    ensures DigitsValue(s) > 0
  {
    if |s| > 1 {
      LeadingNonZeroIsPositive(s[..|s| - 1]);
    } else {
      assert DigitChar(DigitOf(s[0])) == s[0];
    }
  }

  /** Writing back a canonical numeral gives the same characters: the
      decimal writing is exactly the canonical numerals. */
  lemma {:induction false} DecimalOfValue(s: string)
    requires Canonical(s)
    ensures Decimal(DigitsValue(s)) == s
  {
    var n := DigitsValue(s);
    if |s| == 1 {
      assert s[..0] == [];
    } else {
      var p := s[..|s| - 1];
      var d := DigitOf(s[|s| - 1]);
      assert Canonical(p);
      LeadingNonZeroIsPositive(p);
      DecimalOfValue(p);
      assert n == 10 * DigitsValue(p) + d;
      assert n / 10 == DigitsValue(p) && n % 10 == d;
      assert s == p + [s[|s| - 1]];
    }
  }

  /** The two character classes the description parser scans over. */
  datatype CharClass = Digits | NonSpace

  predicate InClass(c: char, cls: CharClass) {
    match cls
    case Digits => IsDigit(c)
    case NonSpace => c != ' '
  }

  /** Length of the longest prefix of `s` whose characters are all in `cls`. */
  function Span(s: string, cls: CharClass): (n: nat)
    ensures n <= |s|
    ensures forall i :: 0 <= i < n ==> InClass(s[i], cls)
    ensures n < |s| ==> !InClass(s[n], cls)
  {
    if |s| == 0 || !InClass(s[0], cls) then 0 else 1 + Span(s[1..], cls)
  }

  /** A prefix inside `cls`, followed by a character outside it (or by
      nothing), spans exactly the prefix. */
  lemma {:induction false} SpanOfPrefix(p: string, q: string, cls: CharClass)
    requires forall i :: 0 <= i < |p| ==> InClass(p[i], cls)
    requires |q| > 0 ==> !InClass(q[0], cls)
    ensures Span(p + q, cls) == |p|
  {
    if |p| == 0 {
      assert p + q == q;
    } else {
      assert (p + q)[0] == p[0];
      assert (p + q)[1..] == p[1..] + q;
      SpanOfPrefix(p[1..], q, cls);
    }
  }
}

=== FILE: validation.dfy ===
/** Form input validation (`_validInputs`, `_positivInputs`,
    `_checkInputRunning`, `_checkInputCycling`).

    A form field is read with unary `+`, which yields a number that may be
    NaN or an infinity; `Num` keeps those cases apart from finite values.
    The rules are asymmetric: a running workout needs all three values
    positive, a cycling workout only distance and duration. */
module Validation {
  import opened Workouts

  /** A JavaScript number as read from a form field. */
  datatype Num = Finite(value: real) | NaN | Infinity(positive: bool)

  /** `Number.isFinite(x)`. */
  predicate IsFinite(x: Num) {
    x.Finite?
  }

  /** `x > 0`: false for NaN and -Infinity, true for +Infinity. */
  predicate IsPositive(x: Num) {
    match x
    case Finite(v) => v > 0.0
    case NaN => false
    case Infinity(positive) => positive
  }

  /** `inputs.every(inp => Number.isFinite(inp))`. */
  function ValidInputs(xs: seq<Num>): (ok: bool)
    ensures ok <==> forall i :: 0 <= i < |xs| ==> IsFinite(xs[i])
  {
    |xs| == 0 || (IsFinite(xs[0]) && ValidInputs(xs[1..]))
  }

  /** `inputs.every(inp => inp > 0)`. */
  function PositiveInputs(xs: seq<Num>): (ok: bool)
    ensures ok <==> forall i :: 0 <= i < |xs| ==> IsPositive(xs[i])
  {
    |xs| == 0 || (IsPositive(xs[0]) && PositiveInputs(xs[1..]))
  }

  /** A finite number greater than zero. */
  predicate FinitePositive(x: Num) {
    x.Finite? && x.value > 0.0
  }

  function CheckInputRunning(distance: Num, duration: Num, cadence: Num): bool
  {
    ValidInputs([distance, duration, cadence]) && PositiveInputs([distance, duration, cadence])
  }

  function CheckInputCycling(distance: Num, duration: Num, elevation: Num): bool
  {
    ValidInputs([distance, duration, elevation]) && PositiveInputs([distance, duration])
  }

  /** A running submission passes exactly when all three values are finite
      and greater than zero. */
  lemma CheckInputRunningIff(distance: Num, duration: Num, cadence: Num)
    ensures CheckInputRunning(distance, duration, cadence)
            <==> FinitePositive(distance) && FinitePositive(duration) && FinitePositive(cadence)
  {
    var xs := [distance, duration, cadence];
    assert xs[0] == distance && xs[1] == duration && xs[2] == cadence;
  }

  /** A cycling submission passes exactly when all three values are finite
      and distance and duration are greater than zero; the elevation may be
      zero or negative. */
  lemma CheckInputCyclingIff(distance: Num, duration: Num, elevation: Num)
    ensures CheckInputCycling(distance, duration, elevation)
            <==> FinitePositive(distance) && FinitePositive(duration) && elevation.Finite?
  {
    var xs := [distance, duration, elevation];
    assert xs[0] == distance && xs[1] == duration && xs[2] == elevation;
    var ys := [distance, duration];
    assert ys[0] == distance && ys[1] == duration;
  }

  /** The values a create or edit form submits. Only the field of the chosen
      type is read: cadence for running, elevation for cycling. */
  datatype Form = Form(kind: Kind, distance: Num, duration: Num, cadence: Num, elevation: Num)

  /** Whether the submission passes the check of its type. */
  predicate Accepts(f: Form) {
    match f.kind
    case Running => CheckInputRunning(f.distance, f.duration, f.cadence)
    case Cycling => CheckInputCycling(f.distance, f.duration, f.elevation)
  }

  /** What an accepted submission guarantees about its values. */
  lemma AcceptedValues(f: Form)
    ensures Accepts(f) <==>
      && FinitePositive(f.distance) && FinitePositive(f.duration)
      && (f.kind == Running ==> FinitePositive(f.cadence))
      && (f.kind == Cycling ==> f.elevation.Finite?)
  {
    CheckInputRunningIff(f.distance, f.duration, f.cadence);
    CheckInputCyclingIff(f.distance, f.duration, f.elevation);
  }

  /** The asymmetry between the two checks: a zero or negative elevation
      passes, a zero or negative cadence does not, and +Infinity passes the
      positivity test but not the finiteness test. */
  lemma CheckAsymmetry(d: real, t: real, v: real)
    requires d > 0.0 && t > 0.0 && v <= 0.0
    ensures CheckInputCycling(Finite(d), Finite(t), Finite(v))
    ensures !CheckInputRunning(Finite(d), Finite(t), Finite(v))
    ensures IsPositive(Infinity(true)) && !CheckInputRunning(Finite(d), Finite(t), Infinity(true))
  {
    CheckInputRunningIff(Finite(d), Finite(t), Finite(v));
    CheckInputCyclingIff(Finite(d), Finite(t), Finite(v));
    CheckInputRunningIff(Finite(d), Finite(t), Infinity(true));
  }
}

=== FILE: workout.dfy ===
/** The workout record and its two variants, Running and Cycling
    (classes `Workout`, `Running` and `Cycling` of script.js).

    The source keeps all four metric fields on every object: the fields of
    the variant that does not apply hold the sentinel -999, and an edit may
    switch an existing object from one variant to the other. The model
    therefore uses one record with a `kind` tag and all four fields, and
    states the variant discipline as the invariant `WellFormed`. */
module Workouts {
  import opened Common
  import Text

  /** The "not applicable" value of an inactive metric field. */
  const Sentinel: real := -999.0

  datatype Kind = Running | Cycling

  /** The `type` string of each variant. */
  function TypeName(k: Kind): string {
    match k
    case Running => "running"
    case Cycling => "cycling"
  }

  /** `[lat, lng]` of the map click that placed the workout. */
  datatype Coords = Coords(lat: real, lng: real)

  /** A reading of the host clock at creation: milliseconds since the epoch
      (what `new Date(a.date)` compares when sorting by date), with the local
      calendar month (0..11, `getMonth()`) and day of month (`getDate()`). */
  datatype Stamp = Stamp(millis: int, month: int, day: int) {
    predicate Valid() {
      0 <= month < 12 && 1 <= day <= 31
    }
  }

  /** The place found by reverse geocoding the click point. */
  datatype Place = Place(locality: string, country: string)

  datatype Workout = Workout(
    id: string,
    date: Stamp,
    coords: Coords,
    kind: Kind,
    distance: real,       // km
    duration: real,       // min
    cadence: real,        // steps/min, Running only
    pace: real,           // min/km, Running only
    elevationGain: real,  // m, Cycling only
    speed: real,          // km/h, Cycling only
    description: string
  )

  const Months: seq<string> := [
    "January", "February", "March", "April", "May", "June",
    "July", "August", "September", "October", "November", "December"
  ]

  /** `Running on May 5`: the type with its first letter upper-cased, " on ",
      the month name, a space and the day of the month. */
  function Description(k: Kind, month: int, day: nat): string
    requires 0 <= month < 12
  {
    Text.Capitalize(TypeName(k)) + " on " + Months[month] + " " + Text.Decimal(day)
  }

  /** What a resolved reverse-geocoding lookup appends: a space, the
      locality, a comma and space, and the country. */
  function PlaceText(p: Place): (s: string)
    ensures |s| > 0 && s[0] == ' '
  {
    " " + p.locality + ", " + p.country
  }

  /** The suffix appended to a new workout's description: the place text,
      or nothing at all when the lookup failed. */
  function PlaceSuffix(place: Option<Place>): (s: string)
    ensures place.None? <==> s == ""
    ensures place.Some? ==> s == PlaceText(place.value)
  {
    match place
    case None => ""
    case Some(p) => PlaceText(p)
  }

  /** The suffix as script.js:287 computes it: `_whereThatWas` returns
      `undefined` from its error handler, and `+=` turns that into the text
      "undefined". */
  function PlaceSuffixAsWritten(place: Option<Place>): (s: string)
    ensures |s| > 0
    ensures s != PlaceSuffix(place) <==> place.None?
  {
    match place
    case None => "undefined"
    case Some(p) => PlaceText(p)
  }

  /** The variant discipline: positive distance and duration, a positive
      cadence for a run, the active variant's metric derived from them, the
      inactive pair at the sentinel. Every accepted create or edit form
      yields such a record. */
  predicate WellFormed(w: Workout) {
    && w.distance > 0.0 && w.duration > 0.0
    && match w.kind
       case Running =>
         && w.cadence > 0.0 && w.pace == w.duration / w.distance
         && w.speed == Sentinel && w.elevationGain == Sentinel
       case Cycling =>
         && w.speed == w.distance / (w.duration / 60.0)
         && w.pace == Sentinel && w.cadence == Sentinel
  }

  predicate AllWellFormed(ws: seq<Workout>) {
    forall i :: 0 <= i < |ws| ==> WellFormed(ws[i])
  }

  /** `new Running(coords, distance, duration, cadence)`. */
  function NewRunning(id: string, now: Stamp, coords: Coords, distance: real, duration: real, cadence: real): (w: Workout)
    requires now.Valid()
    requires distance > 0.0 && duration > 0.0
    ensures WellFormed(w) <==> cadence > 0.0
    ensures w.kind == Running
    ensures w.speed == Sentinel && w.elevationGain == Sentinel
    ensures w.pace * distance == duration
    ensures w.cadence == cadence && w.distance == distance && w.duration == duration
    ensures w.id == id && w.date == now && w.coords == coords
    ensures w.description == Description(Running, now.month, now.day)
  {
    Workout(id, now, coords, Running, distance, duration,
            cadence, duration / distance, Sentinel, Sentinel,
            Description(Running, now.month, now.day))
  }

  /** `new Cycling(coords, distance, duration, elevationGain)`. */
  function NewCycling(id: string, now: Stamp, coords: Coords, distance: real, duration: real, elevationGain: real): (w: Workout)
    requires now.Valid()
    requires distance > 0.0 && duration > 0.0
    ensures WellFormed(w) && w.kind == Cycling
    ensures w.pace == Sentinel && w.cadence == Sentinel
    ensures w.speed * (duration / 60.0) == distance
    ensures w.elevationGain == elevationGain && w.distance == distance && w.duration == duration
    ensures w.id == id && w.date == now && w.coords == coords
    ensures w.description == Description(Cycling, now.month, now.day)
  {
    Workout(id, now, coords, Cycling, distance, duration,
            Sentinel, Sentinel, elevationGain, distance / (duration / 60.0),
            Description(Cycling, now.month, now.day))
  }

  /** `w` with the type, distance and duration replaced, the metric of the
      new type set (cadence for running, elevation gain for cycling), its
      derived metric recomputed and the other pair reset to the sentinel;
      the body of an accepted `_editWorkout`. */
  function Reassigned(w: Workout, k: Kind, distance: real, duration: real, metric: real): (e: Workout)
    requires distance > 0.0 && duration > 0.0
    ensures WellFormed(e) <==> (k == Running ==> metric > 0.0)
    ensures k == Running ==> e.speed == Sentinel && e.elevationGain == Sentinel
    ensures k == Cycling ==> e.pace == Sentinel && e.cadence == Sentinel
    ensures e.id == w.id && e.date == w.date && e.coords == w.coords && e.description == w.description
    ensures e.kind == k && e.distance == distance && e.duration == duration
    ensures k == Running ==> e.cadence == metric && e.pace * distance == duration
    ensures k == Cycling ==> e.elevationGain == metric && e.speed * (duration / 60.0) == distance
  {
    match k
    case Running =>
      w.(kind := Running, distance := distance, duration := duration,
         pace := duration / distance, cadence := metric,
         speed := Sentinel, elevationGain := Sentinel)
    case Cycling =>
      w.(kind := Cycling, distance := distance, duration := duration,
         elevationGain := metric, speed := distance / (duration / 60.0),
         pace := Sentinel, cadence := Sentinel)
  }
}
